=== FILE: README.md ===
# Rental marketplace backend: request handling as pure functions

This project models the request-handling core of a peer-to-peer rental
marketplace backend. Users own listings, record rentals (transactions), send
messages, write reviews, receive notifications and file reports.

The database is a `Store` with one `map<Id, Record>` per table. Each route
handler is a pure function from the store, the caller (`Principal`: an id
and a superuser flag) and the request to a `Reply`. A `Reply` holds the
`Outcome` and the store after the request. An `Outcome` is one of:

- `Ok(value)`;
- `NotFound` (404);
- `Forbidden` (403);
- `Unprocessable` (422), for a listing body whose strings are longer than 255 characters.

The data-access layer (`Crud`) works on single tables. It returns `None`
where the backend returns `None`.

Modules, leaf first:

- `Fields`: `Option`, and `Patch` (`Unset | Set(v)`). A `Patch` is one field of an update body. `Unset` is a field the client left out.
- `Models`: records, create/update bodies, defaults, validators, and the `Store`.
- `Tables`: the query shapes: filtered scan (`Select`), count (`Count`), offset/limit (`Window`), and drawing a fresh id (`FreshId`).
- `Crud`: the data-access functions.
- `Api`: `Principal`, `Outcome`, `Reply`, `Listed`, and the ownership `Policy`.
- `Listings`, `Transactions`, `Messages`, `Reviews`, `Notifications`, `Reports`: one module per route file.

No query has an `order by`, so row order is a parameter. A list handler
takes `scan`, a sequence holding every key of the table once
(`Enumerates`). The contracts of a single request hold for every such order;
a lemma about several requests says when it assumes they all see the same order.

Field bounds (`min_length`, `max_length`) are validator predicates in
`Models`: a password is 8 to 40 characters, an item title 1 to 255, and
every other bounded string at most 255. A handler either requires its body
to pass them, as the framework rejects a failing body before the handler
runs, or answers `Unprocessable` when it does not.

Facts about the code that the model keeps:

- No route handles listing search; the `ListingSearch` body (`backend/app/models.py:179`) is used by none of the routes modelled here.
- The transaction delete route does not return the deleted record. It passes the text "Item deleted successfully" to the chat-message table model, which has no field for it (the name `Message` is rebound at `backend/app/models.py:195`); the model answers with that text.
- Transaction and report statuses are free text. The code restricts them to no set of values.

## Model

| member | source | states |
|---|---|---|
| Tables.FreshId | backend/app/models.py:139 | a new record's id is one that no record of the table holds; such an id always exists |
| Tables.Select | backend/app/api/routes/reviews.py:29-30 | a `where` query returns only rows of the table that satisfy the filter, and every scanned row that satisfies it |
| Tables.Window | backend/app/api/routes/listings.py:35-36 | `offset(skip).limit(limit)` returns consecutive rows starting at `skip`: at most `limit` of them, and none past the end |
| Tables.SelectLength | backend/app/api/routes/listings.py:26-38 | a scan without repeated keys returns exactly one row per matching key |
| Tables.SelectMatchesCount | backend/app/api/routes/transactions.py:17-29 | over the whole table, the filtered rows are as many as the separate count query reports |
| Tables.SelectAllAndOnly | backend/app/api/routes/reviews.py:40-41 | over the whole table, a record is returned iff it is in the table and satisfies the filter |
| Tables.SelectCongruent | backend/app/api/routes/messages.py:30-33 | two filters that agree on every record return the same rows |
| Tables.SelectDistinctKeys | backend/app/api/routes/listings.py:32-38 | over a table keyed by its primary key, a scan without repeated keys returns each row at most once |
| Tables.WindowsJoin | backend/app/api/routes/listings.py:35-36 | the page of `a` rows from `skip` followed by the page of `b` rows from `skip + a` is the page of `a + b` rows from `skip` |
| Tables.WindowsDisjoint | backend/app/api/routes/listings.py:35-36 | a page and a later page that starts past its end share no row |
| Crud.CreateUser | backend/app/crud.py:10-17 | the stored hash is the hash of the password sent; flags left out make an active non-superuser; the user is added under the new id |
| Crud.UpdateUser | backend/app/crud.py:20-31 | each field the update sets is overwritten and each one it leaves out is kept; the stored hash changes exactly when a password is sent, to that password's hash |
| Crud.EmptyUserUpdateIsIdentity | backend/app/crud.py:20-31 | an update that sets no field stores the user unchanged and keeps its hash |
| Crud.CreateUserKeepsHashesAccepted | backend/app/crud.py:10-17 | if every stored hash is the hash of a password of 8 to 40 characters, that still holds after creating a user |
| Crud.UpdateUserKeepsHashesAccepted | backend/app/crud.py:20-31 | the same holds after updating a stored user, with or without a new password |
| Crud.UserByEmail | backend/app/crud.py:34-37 | a user found is the first scanned user with that email; none is found only when no scanned user has it |
| Crud.Authenticate | backend/app/crud.py:40-46 | no user for an unknown email; a user returned is the first one in row order with that email, and the password verifies against their hash; when that first user's hash rejects the password, none |
| Crud.CreateThenAuthenticate | backend/app/crud.py:10-46 | a user just created under an email nobody else holds is returned by authentication with that email and password, whatever the row order |
| Crud.CreateItem | backend/app/crud.py:49-54 | the new item holds the validated title and description, is owned by the given owner, and is added under the new id |
| Crud.CreateItemKeepsItemsValid | backend/app/crud.py:49-54 | if every stored item is keyed by its id with a title of 1 to 255 characters and a description of at most 255, that still holds after creating an item |
| Crud.GetListings | backend/app/crud.py:93-97 | with an owner, only that owner's listings; at most `limit`, all from the table, and a page as long as the owner's listing count allows; no listing twice in a page |
| Crud.CreateListing | backend/app/crud.py:99-105 | as lines 100-101 intend (see Left out): the new listing holds the body's fields and the given owner, and is added under the new id with nothing else changed |
| Crud.ApplyListingUpdate | backend/app/crud.py:111-112 | exactly the fields the update sets are overwritten; id and owner never change |
| Crud.UpdateListing | backend/app/crud.py:107-116 | an unknown id gives none and leaves the table unchanged; otherwise the merged listing replaces the old one |
| Crud.Remove | backend/app/crud.py:118-124 | returns the removed record (none for an unknown id); afterwards the id is absent and every other record is untouched; `delete_transaction` (lines 156-162) is the same operation |
| Crud.EmptyListingUpdateIsIdentity | backend/app/crud.py:111-112 | an update that sets no field returns the listing and leaves the table unchanged |
| Crud.ListingUpdateIdempotent | backend/app/crud.py:107-116 | applying the same update twice gives the same result and table as applying it once |
| Crud.RemoveTwice | backend/app/crud.py:156-162 | a second delete of the same id returns none and changes nothing |
| Crud.GetTransactions | backend/app/crud.py:129-136 | only transactions where the user is renter or lender; at most `limit` of them; page length follows from their count; no transaction twice in a page |
| Crud.CreateTransaction | backend/app/crud.py:138-143 | the new transaction holds exactly the body's fields and is added under the new id |
| Crud.ApplyTransactionUpdate | backend/app/models.py:163-167 | an update can change only status, total price, start and end date; listing, renter and lender never change |
| Crud.UpdateTransaction | backend/app/crud.py:145-154 | an unknown id gives none and leaves the table unchanged; otherwise the merged transaction replaces the old one |
| Crud.EmptyTransactionUpdateIsIdentity | backend/app/crud.py:149-150 | an update that sets no field returns the transaction and leaves the table unchanged |
| Api.OkUnlessEmpty | backend/app/api/routes/messages.py:35-37 | an empty result is 404, and a non-empty one is returned as it is |
| Listings.ReadListings | backend/app/api/routes/listings.py:12-40 | `count` counts every listing for a superuser and the caller's own otherwise, whatever the page; a non-superuser's page holds only their listings; the page has at most `limit` rows and no listing twice; the store is unchanged |
| Listings.ConsecutivePages | backend/app/api/routes/listings.py:32-38 | when both requests see the rows in the same order, two consecutive pages together are the page as long as both, and share no listing |
| Listings.CreateListing | backend/app/api/routes/listings.py:42-51 | a body with a string over 255 characters is 422 with the store unchanged; otherwise the new listing is owned by the caller and is the only change |
| Listings.ReadListing | backend/app/api/routes/listings.py:53-67 | 404 iff the id is unknown; for a known id, 403 iff the caller is neither superuser nor owner; never changes the store |
| Listings.UpdateListing | backend/app/api/routes/listings.py:69-84 | 422 for an invalid body, then 404 iff the id is unknown, then 403 iff neither superuser nor owner, with the store unchanged on all three; success stores the merged listing with its owner unchanged |
| Listings.DeleteListing | backend/app/api/routes/listings.py:86-100 | 404 iff unknown, then 403 iff neither superuser nor owner, with the store unchanged; success removes exactly that listing and answers with it |
| Listings.CreateThenDeleteRestores | backend/app/api/routes/listings.py:42-100 | the creator deleting a listing they just created gets it back, and the store is as before the creation |
| Listings.DeleteTwiceIsNotFound | backend/app/api/routes/listings.py:95-97 | after a successful delete, a second delete is 404 |
| Listings.EmptyUpdateChangesNothing | backend/app/api/routes/listings.py:79-84 | an empty update by the owner or a superuser answers with the listing and leaves the store unchanged |
| Transactions.ReadTransactions | backend/app/api/routes/transactions.py:10-31 | `count` is the number of transactions where the caller is renter or lender, whatever the page; the page has at most `limit` rows, all of them the caller's, and no transaction twice |
| Transactions.ConsecutivePages | backend/app/api/routes/transactions.py:23-29 | when both requests see the rows in the same order, two consecutive pages together are the page as long as both, and share no transaction |
| Transactions.CreateTransaction | backend/app/api/routes/transactions.py:33-46 | always succeeds; stores the body's renter and lender as given, whoever the caller is |
| Transactions.ReadTransaction | backend/app/api/routes/transactions.py:48-62 | 404 iff unknown; for a known id, 403 iff the caller is not a superuser, the renter or the lender; never changes the store |
| Transactions.UpdateTransaction | backend/app/api/routes/transactions.py:64-84 | 404 iff unknown, then 403 iff not a superuser or party, with the store unchanged; success stores the merged transaction |
| Transactions.DeleteTransaction | backend/app/api/routes/transactions.py:86-102 | 404 iff unknown, then 403 iff not a superuser or party, with the store unchanged; success removes exactly that id and answers "Item deleted successfully" |
| Transactions.CreatorOutsideTheRentalIsLockedOut | backend/app/api/routes/transactions.py:42-61 | a non-superuser who records a rental between two other users succeeds but then gets 403 reading it |
| Transactions.CreateThenDeleteByPartyRestores | backend/app/api/routes/transactions.py:95-102 | a party deleting a transaction just created leaves the store as before the creation |
| Transactions.DeleteTwiceIsNotFound | backend/app/api/routes/transactions.py:95-97 | after a successful delete, a second delete is 404 |
| Transactions.EmptyUpdateChangesNothing | backend/app/api/routes/transactions.py:79-84 | an empty update by a party or a superuser answers with the transaction and leaves the store unchanged |
| Messages.SendMessage | backend/app/api/routes/messages.py:12-22 | the stored sender is the caller, whatever the body says; receiver and content are the body's; a missing timestamp is now |
| Messages.GetConversation | backend/app/api/routes/messages.py:24-37 | the result holds exactly the messages caller→other and other→caller; 404 iff there is none; the store is unchanged |
| Messages.ConversationIsSymmetric | backend/app/api/routes/messages.py:30-33 | A asking for the conversation with B gets the same answer as B asking for the one with A |
| Messages.SentMessageIsInConversation | backend/app/api/routes/messages.py:12-37 | after the caller sends a message, the conversation with its receiver is found and holds that message |
| Reviews.CreateReview | backend/app/api/routes/reviews.py:12-22 | the stored reviewer is the caller, whatever the body says; the other fields are the body's |
| Reviews.ReviewsOfListing | backend/app/api/routes/reviews.py:24-33 | exactly the reviews of that listing, with no paging; 404 iff there is none |
| Reviews.ReviewsOfUser | backend/app/api/routes/reviews.py:35-44 | exactly the reviews whose reviewee is that user; 404 iff there is none |
| Reviews.CreatedReviewIsListed | backend/app/api/routes/reviews.py:12-44 | a review just written is found under its listing and under its reviewee |
| Notifications.CreateNotification | backend/app/api/routes/notifications.py:12-21 | stores the body for whichever user it names, without looking at the caller; a missing `is_read` means unread |
| Notifications.GetNotifications | backend/app/api/routes/notifications.py:23-32 | only notifications addressed to the caller, at most `limit` of them and none twice; page length follows from their number |
| Notifications.ConsecutivePages | backend/app/api/routes/notifications.py:30-31 | when both requests see the rows in the same order, two consecutive pages together are the page as long as both, and share no notification |
| Notifications.MarkRead | backend/app/api/routes/notifications.py:34-49 | 404 iff unknown; then 403 iff the notification is someone else's, superuser or not; success sets `is_read` and changes nothing else |
| Notifications.MarkReadIdempotent | backend/app/api/routes/notifications.py:45-49 | marking read twice answers and stores the same as marking once |
| Notifications.OnlyAddresseeMarksRead | backend/app/api/routes/notifications.py:43-44 | anyone but the addressee, a superuser included, gets 403 and no change |
| Notifications.CreatedNotificationMarkedByAddressee | backend/app/api/routes/notifications.py:12-49 | a new notification can be marked read by exactly its addressee |
| Reports.ApplyReportUpdate | backend/app/models.py:249-250 | a report update changes at most the status, and only when the update sets one |
| Reports.CreateReport | backend/app/api/routes/reports.py:13-23 | the stored reporter is the caller, whatever the body says; a missing status is "pending"; the listing may be absent |
| Reports.GetReports | backend/app/api/routes/reports.py:25-36 | only reports the caller filed or is the subject of, at most `limit` of them and none twice; page length follows from their number |
| Reports.ConsecutivePages | backend/app/api/routes/reports.py:32-35 | when both requests see the rows in the same order, two consecutive pages together are the page as long as both, and share no report |
| Reports.UpdateReport | backend/app/api/routes/reports.py:38-55 | 404 iff unknown; then 403 iff the caller is not the reporter (a superuser or the reported user gets 403 too); success changes at most the status |
| Reports.OnlyReporterUpdates | backend/app/api/routes/reports.py:48-49 | anyone other than the reporter gets 403 and the store is unchanged |
| Reports.FilerCanUpdate | backend/app/api/routes/reports.py:13-55 | whoever files a report can then set its status, even if the body named another reporter |
| Reports.EmptyUpdateChangesNothing | backend/app/api/routes/reports.py:50-55 | an empty update by the reporter answers with the report and leaves the store unchanged |

## Left out

- The database session (add, commit, refresh) and SQL query construction. Tables are maps and queries are filters over a given row order.
- Routing, dependency injection, HTTP status codes and response-model coercion. The router mounting in `backend/app/api/main.py` is static configuration.
- Transactions.DeleteTransaction: answers with the text "Item deleted successfully". The route declares a transaction response model, and `backend/app/models.py` binds the name `Message` twice (lines 96 and 195), so the record the route builds is the chat-message table model. What the framework then sends back depends on its response validation, which is not modelled.
- Password hashing and verification. They are the parameters `hash` and `verify`.
- Token issuance and credential checking. The caller arrives as a `Principal`.
- Email and URL format checks. Emails and image URLs are plain strings; only the email's `max_length` is checked, and image URLs have none.
- Floats (price, total price, rating) and datetimes. Both are integers, since no operation computes with them.
- UUID generation. Each create handler takes the new id and requires it to be unused. `Tables.FreshId` shows such an id always exists; it picks the least one instead of a random one.
- Clock reads. The `timestamp` default is a `now` parameter.
- Negative `skip` or `limit`. Both are `nat`; a negative offset or limit is a database error in the backend.
- An explicit null in an update body for a field whose column is not nullable. The model's update fields for those columns carry only values. What the backend does with such a null depends on the field:
  - transaction fields and the report status: the body accepts null, and the database rejects the write;
  - a user's `email`: the body accepts null, and the database rejects the write;
  - a user's `password`: the body accepts null, and hashing it fails before anything is written;
  - a user's `is_active` and `is_superuser`: these are plain booleans, so the body itself is rejected (422).
- Listing fields and a user's `full_name` are nullable, so an update can set them to null (`Set(None)`), and the model allows it.
- Default query arguments. The routes default `skip` to 0 and `limit` to 100; in `backend/app/crud.py`, `get_listings` defaults `limit` to 10 and `owner_id` to none, and `get_transactions` defaults `skip` to 0 and `limit` to 10. The model has no defaults, and every call passes all of them.
- Request bodies with missing or mistyped fields. The datatypes cannot hold them.
- Crud.CreateUser: does not model the database rejecting a duplicate email (unique index). Crud.UserByEmail takes the first match in row order, which is the only one when emails are unique.
- Crud.UpdateUser: the same; duplicate emails are not rejected.
- `get_listing` and `get_transaction`: each is a map lookup inside the route handlers.
- The routes import the listing functions under a module name that does not exist. The model uses the functions of `backend/app/crud.py`.
- Pages from separate requests. No query has an `order by`, so two requests may see the rows in different orders, and paging through them may repeat or skip rows. The `ConsecutivePages` lemmas assume one order for both requests.
- Crud.CreateListing: stores the listing that lines 100-101 of `backend/app/crud.py` evidently intend: the body's fields, with the owner set to the given owner. As written, line 100 validates the body as a full `Listing` record. That record requires `owner_id` (`backend/app/models.py:140`), and the body has no such field, so validation fails before line 101 sets the owner, and nothing is stored. The model does not reproduce that failure.
- Listings.CreateListing: the same; the route's success case is the intended behaviour, not the validation failure described above.
- The items, users, login and utils routes. Those files are not part of this model.

=== FILE: api.dfy ===
/**
 * What every route shares: the caller, the answer a route gives, and the
 * ownership policies the by-id routes check.
 *
 * Each route handler is a function from the store, the caller and the
 * request to a `Reply`: the outcome and the store after the request. The
 * framework's part (routing, decoding the body, turning an outcome into an
 * HTTP status) is not modelled; a body the schema rejects is the outcome
 * `Unprocessable`.
 */
module Api {
  import opened Models

  /** The authenticated caller, as the credential resolves to a user. */
  datatype Principal = Principal(id: Id, isSuperuser: bool)

  /** A route's result: a value, 404, 403, or 422 for a body the schema rejects. */
  datatype Outcome<+T> = Ok(value: T) | NotFound | Forbidden | Unprocessable

  /** A route's outcome and the store after the request. */
  datatype Reply<+T> = Reply(outcome: Outcome<T>, store: Store)

  /** One page of records and the number of matching records on all pages. */
  datatype Listed<+T> = Listed(data: seq<T>, count: nat)

  /** The answer of a route that deletes without echoing the record. */
  const DeletedMessage := "Item deleted successfully"

  /**
   * Who, besides learning that a record exists, may act on it: its owner or
   * a superuser; either of two parties or a superuser; or one named user
   * with no superuser exception.
   */
  datatype Policy =
    | OwnerOrSuperuser(owner: Id)
    | PartyOrSuperuser(first: Id, second: Id)
    | ActorOnly(actor: Id)

  predicate Permits(policy: Policy, caller: Principal) {
    match policy
    case OwnerOrSuperuser(owner) => caller.isSuperuser || owner == caller.id
    case PartyOrSuperuser(first, second) => caller.isSuperuser || first == caller.id || second == caller.id
    case ActorOnly(actor) => actor == caller.id
  }

  /** The answer of a list route that reports an empty result as 404. */
  function OkUnlessEmpty<T>(rows: seq<T>): (r: Outcome<seq<T>>)
    ensures r.NotFound? <==> rows == []
    ensures r.Ok? <==> rows != []
    ensures r.Ok? ==> r.value == rows
  {
    if rows == [] then NotFound else Ok(rows)
  }
}

=== FILE: crud.dfy ===
/**
 * The data-access layer (backend/app/crud.py): one function per table and
 * operation, each taking the table it reads or writes and returning the
 * table after the write. A lookup that finds nothing returns `None`; no
 * function here checks who is asking.
 *
 * Password hashing and verification are parameters, `hash` and `verify`:
 * the model says where their results go, not what they compute.
 */
module Crud {
  import opened Fields
  import opened Models
  import opened Tables

  /** A record that was written, and the table after the write. */
  datatype Saved<T> = Saved(record: T, table: map<Id, T>)

  /** The record an update or delete found (`None` if none), and the table after it. */
  datatype Written<T> = Written(result: Option<T>, table: map<Id, T>)

  // ---------------------------------------------------------------- users

  /** Inserts a user whose stored password is the hash of the one sent; left-out flags make an active non-superuser. */
  function CreateUser(users: map<Id, User>, c: UserCreate, newId: Id, hash: string -> string): (r: Saved<User>)
    requires ValidUserCreate(c)
    requires newId !in users
    ensures r.record.id == newId && r.record.email == c.email && r.record.fullName == c.fullName
    ensures r.record.hashedPassword == hash(c.password)
    ensures c.isActive.None? ==> r.record.isActive
    ensures c.isActive.Some? ==> r.record.isActive == c.isActive.value
    ensures c.isSuperuser.None? ==> !r.record.isSuperuser
    ensures c.isSuperuser.Some? ==> r.record.isSuperuser == c.isSuperuser.value
    ensures r.table == users[newId := r.record]
  {
    var u := User(newId, c.email, c.isActive.GetOr(true), c.isSuperuser.GetOr(false), c.fullName, hash(c.password));
    Saved(u, users[newId := u])
  }

  /**
   * Merges the fields the update sets onto `u` and stores it. A password in
   * the update is hashed into `hashedPassword`; without one the stored hash
   * stays as it was.
   */
  function UpdateUser(users: map<Id, User>, u: User, upd: UserUpdate, hash: string -> string): (r: Saved<User>)
    requires ValidUserUpdate(upd)
    ensures r.record.id == u.id
    ensures upd.password.Set? ==> r.record.hashedPassword == hash(upd.password.value)
    ensures upd.password.Unset? ==> r.record.hashedPassword == u.hashedPassword
    ensures upd.email.Set? ==> r.record.email == upd.email.value
    ensures upd.email.Unset? ==> r.record.email == u.email
    ensures upd.isActive.Set? ==> r.record.isActive == upd.isActive.value
    ensures upd.isActive.Unset? ==> r.record.isActive == u.isActive
    ensures upd.isSuperuser.Set? ==> r.record.isSuperuser == upd.isSuperuser.value
    ensures upd.isSuperuser.Unset? ==> r.record.isSuperuser == u.isSuperuser
    ensures upd.fullName.Set? ==> r.record.fullName == upd.fullName.value
    ensures upd.fullName.Unset? ==> r.record.fullName == u.fullName
    ensures r.table == users[u.id := r.record]
  {
    var hashed := if upd.password.Set? then hash(upd.password.value) else u.hashedPassword;
    var v := u.(
      email := upd.email.Over(u.email),
      isActive := upd.isActive.Over(u.isActive),
      isSuperuser := upd.isSuperuser.Over(u.isSuperuser),
      fullName := upd.fullName.Over(u.fullName),
      hashedPassword := hashed);
    Saved(v, users[u.id := v])
  }

  /** Position `i` of `scan` holds a user with this email, and no earlier position does. */
  predicate FirstWithEmail(users: map<Id, User>, scan: seq<Id>, email: string, i: int) {
    && 0 <= i < |scan|
    && scan[i] in users && users[scan[i]].email == email
    && forall j :: 0 <= j < i ==> !(scan[j] in users && users[scan[j]].email == email)
  }

  /** Past a first key without the email, a first match in the rest is a first match in the whole scan. */
  lemma FirstWithEmailShifts(users: map<Id, User>, scan: seq<Id>, email: string)
    requires scan != [] && !(scan[0] in users && users[scan[0]].email == email)
    ensures forall i :: FirstWithEmail(users, scan[1..], email, i) ==> FirstWithEmail(users, scan, email, i + 1)
  {
    forall i | FirstWithEmail(users, scan[1..], email, i) ensures FirstWithEmail(users, scan, email, i + 1) {
      forall j | 1 <= j < i + 1 ensures !(scan[j] in users && users[scan[j]].email == email) {
        assert scan[j] == scan[1..][j - 1];
      }
    }
  }

  /** The first user, in scan order, whose email is `email`. */
  function UserByEmail(users: map<Id, User>, scan: seq<Id>, email: string): (r: Option<User>)
    ensures r.Some? ==> r.value in users.Values && r.value.email == email
    ensures r.Some? ==> exists i :: FirstWithEmail(users, scan, email, i) && users[scan[i]] == r.value
    ensures r.None? ==> forall k :: k in scan && k in users ==> users[k].email != email
  {
    if scan == [] then None
    else if scan[0] in users && users[scan[0]].email == email then
      assert FirstWithEmail(users, scan, email, 0);
      Some(users[scan[0]])
    else
      FirstWithEmailShifts(users, scan, email);
      UserByEmail(users, scan[1..], email)
  }

  /**
   * The user with this email if `verify` accepts the password against their
   * stored hash; `None` when no user has the email or the password is wrong.
   */
  function Authenticate(
    users: map<Id, User>, scan: seq<Id>, email: string, password: string,
    verify: (string, string) -> bool): (r: Option<User>)
    requires Enumerates(scan, users)
    ensures (forall u :: u in users.Values ==> u.email != email) ==> r.None?
    ensures r.Some? ==> r.value in users.Values && r.value.email == email
    ensures r.Some? ==> verify(password, r.value.hashedPassword)
    ensures r.Some? ==> UserByEmail(users, scan, email) == r
    ensures r.None? && UserByEmail(users, scan, email).Some? ==>
      !verify(password, UserByEmail(users, scan, email).value.hashedPassword)
  {
    match UserByEmail(users, scan, email)
    case None => None
    case Some(u) => if verify(password, u.hashedPassword) then Some(u) else None
  }

  /** An update body that leaves every field out. */
  const NoUserChange := UserUpdate(Unset, Unset, Unset, Unset, Unset)

  /** An update that sets no field stores the user as it was. */
  lemma EmptyUserUpdateIsIdentity(users: map<Id, User>, u: User, hash: string -> string)
    ensures UpdateUser(users, u, NoUserChange, hash) == Saved(u, users[u.id := u])
  {
  }

  /** Every stored hash is the hash of some password the schemas accept (8 to 40 characters). */
  ghost predicate HashesOfAcceptedPasswords(users: map<Id, User>, hash: string -> string) {
    forall k :: k in users ==> exists p :: ValidPassword(p) && users[k].hashedPassword == hash(p)
  }

  /** Creating a user keeps every stored hash the hash of an accepted password. */
  lemma CreateUserKeepsHashesAccepted(users: map<Id, User>, c: UserCreate, newId: Id, hash: string -> string)
    requires ValidUserCreate(c) && newId !in users
    requires HashesOfAcceptedPasswords(users, hash)
    ensures HashesOfAcceptedPasswords(CreateUser(users, c, newId, hash).table, hash)
  {
    var after := CreateUser(users, c, newId, hash).table;
    forall k | k in after ensures exists p :: ValidPassword(p) && after[k].hashedPassword == hash(p) {
      if k == newId {
        assert ValidPassword(c.password) && after[k].hashedPassword == hash(c.password);
      } else {
        assert after[k] == users[k];
      }
    }
  }

  /** Updating a stored user keeps every stored hash the hash of an accepted password. */
  lemma UpdateUserKeepsHashesAccepted(users: map<Id, User>, u: User, upd: UserUpdate, hash: string -> string)
    requires ValidUserUpdate(upd)
    requires u.id in users && users[u.id] == u
    requires HashesOfAcceptedPasswords(users, hash)
    ensures HashesOfAcceptedPasswords(UpdateUser(users, u, upd, hash).table, hash)
  {
    var after := UpdateUser(users, u, upd, hash).table;
    forall k | k in after ensures exists p :: ValidPassword(p) && after[k].hashedPassword == hash(p) {
      if k == u.id && upd.password.Set? {
        assert ValidPassword(upd.password.value) && after[k].hashedPassword == hash(upd.password.value);
      } else if k == u.id {
        assert after[k].hashedPassword == users[k].hashedPassword;
      } else {
        assert after[k] == users[k];
      }
    }
  }

  /**
   * A user just created under an email nobody else holds signs in with the
   * password they were created with, whatever the row order, provided the
   * verifier accepts a password against its own hash.
   */
  lemma CreateThenAuthenticate(
    users: map<Id, User>, c: UserCreate, newId: Id, hash: string -> string,
    verify: (string, string) -> bool, scan: seq<Id>)
    requires ValidUserCreate(c) && newId !in users
    requires forall k :: k in users ==> users[k].email != c.email
    requires verify(c.password, hash(c.password))
    requires Enumerates(scan, CreateUser(users, c, newId, hash).table)
    ensures var created := CreateUser(users, c, newId, hash);
      Authenticate(created.table, scan, c.email, c.password, verify) == Some(created.record)
  {
    var created := CreateUser(users, c, newId, hash);
    assert newId in scan && newId in created.table;
    var found := UserByEmail(created.table, scan, c.email);
    assert found.Some?;
    var k :| k in created.table && created.table[k] == found.value;
    assert k == newId;
  }

  // ---------------------------------------------------------------- items

  /** Inserts an item owned by `ownerId`. */
  function CreateItem(items: map<Id, Item>, c: ItemCreate, ownerId: Id, newId: Id): (r: Saved<Item>)
    requires ValidItemCreate(c)
    requires newId !in items
    ensures r.record == Item(newId, c.title, c.description, ownerId)
    ensures 1 <= |r.record.title| <= MaxFieldLength
    ensures r.table == items[newId := r.record]
  {
    var item := Item(newId, c.title, c.description, ownerId);
    Saved(item, items[newId := item])
  }

  /** Every stored item is keyed by its id, with a title of 1 to 255 characters and a description of at most 255. */
  predicate ItemsValid(items: map<Id, Item>) {
    forall k :: k in items ==>
      items[k].id == k && 1 <= |items[k].title| <= MaxFieldLength && OptionalWithinMax(items[k].description)
  }

  /** Creating an item keeps the stored items valid. */
  lemma CreateItemKeepsItemsValid(items: map<Id, Item>, c: ItemCreate, ownerId: Id, newId: Id)
    requires ValidItemCreate(c) && newId !in items
    requires ItemsValid(items)
    ensures ItemsValid(CreateItem(items, c, ownerId, newId).table)
  {
  }

  // ------------------------------------------------- generic update/delete

  /**
   * Removes the record under `id` and returns it; `None` and no change for an
   * unknown id. Both `delete_listing` and `delete_transaction` are this.
   */
  function Remove<T>(table: map<Id, T>, id: Id): (r: Written<T>)
    ensures id !in table ==> r.result.None? && r.table == table
    ensures id in table ==> r.result == Some(table[id])
    ensures r.table.Keys == table.Keys - {id}
    ensures forall k :: k in r.table ==> r.table[k] == table[k]
  {
    if id !in table then Written(None, table)
    else Written(Some(table[id]), table - {id})
  }

  /** Deleting a second time finds nothing and changes nothing. */
  lemma RemoveTwice<T>(table: map<Id, T>, id: Id)
    ensures var once := Remove(table, id);
      Remove(once.table, id) == Written(None, once.table)
  {
  }

  // ------------------------------------------------------------- listings

  /** Whether `l` is among the listings `owner` holds; every listing is when `owner` is `None`. */
  predicate OwnedBy(owner: Option<Id>, l: Listing) {
    owner.None? || l.ownerId == owner.value
  }

  /** The filter of a listing query scoped to `owner`. */
  function OwnerFilter(owner: Option<Id>): Listing -> bool {
    l => OwnedBy(owner, l)
  }

  /** Ids of the listings `owner` holds, or of every listing when `owner` is `None`. */
  function ListingsOf(listings: map<Id, Listing>, owner: Option<Id>): set<Id> {
    set k | k in listings && OwnedBy(owner, listings[k])
  }

  /** Listings, optionally only those owned by `owner`, one offset/limit page of them. */
  function GetListings(listings: map<Id, Listing>, scan: seq<Id>, owner: Option<Id>, skip: nat, limit: nat): (r: seq<Listing>)
    requires Enumerates(scan, listings)
    ensures |r| <= limit
    ensures forall i :: 0 <= i < |r| ==> r[i] in listings.Values
    ensures owner.Some? ==> forall i :: 0 <= i < |r| ==> r[i].ownerId == owner.value
    ensures var matching := |ListingsOf(listings, owner)|;
      |r| == if skip >= matching then 0 else Min(limit, matching - skip)
    ensures (forall k :: k in listings ==> listings[k].id == k) ==>
      forall i, j :: 0 <= i < j < |r| ==> r[i].id != r[j].id
  {
    var p := OwnerFilter(owner);
    SelectMatchesCount(listings, scan, p);
    CountIs(listings, p, ListingsOf(listings, owner));
    PageDistinctKeys(listings, scan, p, (l: Listing) => l.id, skip, limit);
    Window(Select(listings, scan, p), skip, limit)
  }

  /**
   * Inserts a listing with the body's fields and `ownerId` as its owner, as
   * `create_listing` intends. As written it validates the body as a full
   * listing before the owner is set, which fails; that failure is not modelled.
   */
  function CreateListing(listings: map<Id, Listing>, c: ListingCreate, ownerId: Id, newId: Id): (r: Saved<Listing>)
    requires ValidListingCreate(c)
    requires newId !in listings
    ensures r.record.id == newId && r.record.ownerId == ownerId
    ensures r.record.title == c.title && r.record.description == c.description && r.record.price == c.price
    ensures r.record.category == c.category && r.record.location == c.location && r.record.images == c.images
    ensures r.table == listings[newId := r.record]
  {
    var l := Listing(newId, c.title, c.description, c.price, c.category, c.location, c.images, ownerId);
    Saved(l, listings[newId := l])
  }

  /** `l` with every field the update sets overwritten; id and owner are never touched. */
  function ApplyListingUpdate(l: Listing, u: ListingUpdate): (r: Listing)
    ensures r.id == l.id && r.ownerId == l.ownerId
    ensures u.title.Set? ==> r.title == u.title.value
    ensures u.title.Unset? ==> r.title == l.title
    ensures u.description.Set? ==> r.description == u.description.value
    ensures u.description.Unset? ==> r.description == l.description
    ensures u.price.Set? ==> r.price == u.price.value
    ensures u.price.Unset? ==> r.price == l.price
    ensures u.category.Set? ==> r.category == u.category.value
    ensures u.category.Unset? ==> r.category == l.category
    ensures u.location.Set? ==> r.location == u.location.value
    ensures u.location.Unset? ==> r.location == l.location
    ensures u.images.Set? ==> r.images == u.images.value
    ensures u.images.Unset? ==> r.images == l.images
  {
    l.(
      title := u.title.Over(l.title),
      description := u.description.Over(l.description),
      price := u.price.Over(l.price),
      category := u.category.Over(l.category),
      location := u.location.Over(l.location),
      images := u.images.Over(l.images))
  }

  /** Merges the update onto the listing under `id`; `None` and no change for an unknown id. */
  function UpdateListing(listings: map<Id, Listing>, id: Id, u: ListingUpdate): (r: Written<Listing>)
    requires ValidListingUpdate(u)
    ensures id !in listings ==> r.result.None? && r.table == listings
    ensures id in listings ==> r.result == Some(ApplyListingUpdate(listings[id], u))
    ensures id in listings ==> r.table == listings[id := r.result.value]
  {
    if id !in listings then Written(None, listings)
    else
      var l := ApplyListingUpdate(listings[id], u);
      Written(Some(l), listings[id := l])
  }

  /** An update that sets no field gives back the listing and the table unchanged. */
  lemma EmptyListingUpdateIsIdentity(listings: map<Id, Listing>, id: Id)
    requires id in listings
    ensures UpdateListing(listings, id, NoListingChange) == Written(Some(listings[id]), listings)
  {
    assert ApplyListingUpdate(listings[id], NoListingChange) == listings[id];
  }

  /** Sending the same update twice leaves the table as sending it once. */
  lemma ListingUpdateIdempotent(listings: map<Id, Listing>, id: Id, u: ListingUpdate)
    requires ValidListingUpdate(u)
    ensures var once := UpdateListing(listings, id, u);
      UpdateListing(once.table, id, u) == once
  {
  }

  // --------------------------------------------------------- transactions

  /** Whether `userId` is the renter or the lender of `t`. */
  predicate PartyTo(userId: Id, t: Transaction) {
    t.renterId == userId || t.lenderId == userId
  }

  /** The filter of a transaction query scoped to `userId`'s rentals. */
  function PartyFilter(userId: Id): Transaction -> bool {
    t => PartyTo(userId, t)
  }

  /** Ids of the transactions in which `userId` is renter or lender. */
  function TransactionsOf(transactions: map<Id, Transaction>, userId: Id): set<Id> {
    set k | k in transactions && PartyTo(userId, transactions[k])
  }

  /** Transactions in which `userId` is renter or lender, one offset/limit page of them. */
  function GetTransactions(transactions: map<Id, Transaction>, scan: seq<Id>, userId: Id, skip: nat, limit: nat): (r: seq<Transaction>)
    requires Enumerates(scan, transactions)
    ensures |r| <= limit
    ensures forall i :: 0 <= i < |r| ==> r[i] in transactions.Values && (r[i].renterId == userId || r[i].lenderId == userId)
    ensures var matching := |TransactionsOf(transactions, userId)|;
      |r| == if skip >= matching then 0 else Min(limit, matching - skip)
    ensures (forall k :: k in transactions ==> transactions[k].id == k) ==>
      forall i, j :: 0 <= i < j < |r| ==> r[i].id != r[j].id
  {
    var p := PartyFilter(userId);
    SelectMatchesCount(transactions, scan, p);
    CountIs(transactions, p, TransactionsOf(transactions, userId));
    PageDistinctKeys(transactions, scan, p, (t: Transaction) => t.id, skip, limit);
    Window(Select(transactions, scan, p), skip, limit)
  }

  /** Inserts a transaction holding exactly the body's fields. */
  function CreateTransaction(transactions: map<Id, Transaction>, c: TransactionCreate, newId: Id): (r: Saved<Transaction>)
    requires newId !in transactions
    ensures r.record.id == newId
    ensures r.record.listingId == c.listingId && r.record.renterId == c.renterId && r.record.lenderId == c.lenderId
    ensures r.record.startDate == c.startDate && r.record.endDate == c.endDate
    ensures r.record.totalPrice == c.totalPrice && r.record.status == c.status
    ensures r.table == transactions[newId := r.record]
  {
    var t := Transaction(newId, c.listingId, c.renterId, c.lenderId, c.startDate, c.endDate, c.totalPrice, c.status);
    Saved(t, transactions[newId := t])
  }

  /** `t` with every field the update sets overwritten; the listing and both parties are never touched. */
  function ApplyTransactionUpdate(t: Transaction, u: TransactionUpdate): (r: Transaction)
    ensures r.id == t.id && r.listingId == t.listingId && r.renterId == t.renterId && r.lenderId == t.lenderId
    ensures u.status.Set? ==> r.status == u.status.value
    ensures u.status.Unset? ==> r.status == t.status
    ensures u.totalPrice.Set? ==> r.totalPrice == u.totalPrice.value
    ensures u.totalPrice.Unset? ==> r.totalPrice == t.totalPrice
    ensures u.startDate.Set? ==> r.startDate == u.startDate.value
    ensures u.startDate.Unset? ==> r.startDate == t.startDate
    ensures u.endDate.Set? ==> r.endDate == u.endDate.value
    ensures u.endDate.Unset? ==> r.endDate == t.endDate
  {
    t.(
      status := u.status.Over(t.status),
      totalPrice := u.totalPrice.Over(t.totalPrice),
      startDate := u.startDate.Over(t.startDate),
      endDate := u.endDate.Over(t.endDate))
  }

  /** Merges the update onto the transaction under `id`; `None` and no change for an unknown id. */
  function UpdateTransaction(transactions: map<Id, Transaction>, id: Id, u: TransactionUpdate): (r: Written<Transaction>)
    ensures id !in transactions ==> r.result.None? && r.table == transactions
    ensures id in transactions ==> r.result == Some(ApplyTransactionUpdate(transactions[id], u))
    ensures id in transactions ==> r.table == transactions[id := r.result.value]
  {
    if id !in transactions then Written(None, transactions)
    else
      var t := ApplyTransactionUpdate(transactions[id], u);
      Written(Some(t), transactions[id := t])
  }

  /** An update that sets no field gives back the transaction and the table unchanged. */
  lemma EmptyTransactionUpdateIsIdentity(transactions: map<Id, Transaction>, id: Id)
    requires id in transactions
    ensures UpdateTransaction(transactions, id, NoTransactionChange) == Written(Some(transactions[id]), transactions)
  {
    assert ApplyTransactionUpdate(transactions[id], NoTransactionChange) == transactions[id];
  }
}

=== FILE: fields.dfy ===
/**
 * Optional values and the fields of partial-update request bodies.
 */
module Fields {

  /** A value that may be absent (`None` in the backend). */
  datatype Option<+T> = None | Some(value: T) {

    /** The value, or `default` when absent. */
    function GetOr(default: T): T {
      if Some? then value else default
    }
  }

  /**
   * One field of an update body. `Unset` is a field the client left out of
   * the request, which the update skips (`exclude_unset=True`); `Set` carries
   * the value the client sent.
   */
  datatype Patch<+T> = Unset | Set(value: T) {

    /** The field after the update: the sent value, or `current` when left out. */
    function Over(current: T): T {
      if Set? then value else current
    }
  }
}

=== FILE: listings.dfy ===
/**
 * The `/listings` routes (backend/app/api/routes/listings.py).
 *
 * A superuser sees and may act on every listing; anyone else only on their
 * own. The by-id routes answer 404 for an unknown id before they look at
 * who is asking. The owner of a new listing is always the caller, and no
 * update can change it.
 */
module Listings {
  import opened Fields
  import opened Models
  import opened Tables
  import opened Api
  import Crud

  function PolicyOf(l: Listing): Policy {
    OwnerOrSuperuser(l.ownerId)
  }

  /** Whose listings `caller` sees: everybody's for a superuser, otherwise their own. */
  function Scope(caller: Principal): Option<Id> {
    if caller.isSuperuser then None else Some(caller.id)
  }

  /**
   * `GET /listings`: one page of the listings the caller sees, and how many
   * there are on all pages. A superuser's two queries have no `where`; anyone
   * else's are restricted to their own listings.
   */
  function ReadListings(s: Store, caller: Principal, scan: seq<Id>, skip: nat, limit: nat): (r: Reply<Listed<Listing>>)
    requires Enumerates(scan, s.listings)
    ensures r.store == s && r.outcome.Ok?
    ensures r.outcome.value.count == |Crud.ListingsOf(s.listings, Scope(caller))|
    ensures var page := r.outcome.value.data;
      && |page| <= limit
      && |page| == (if skip >= r.outcome.value.count then 0 else Min(limit, r.outcome.value.count - skip))
      && (forall i :: 0 <= i < |page| ==> page[i] in s.listings.Values)
      && (!caller.isSuperuser ==> forall i :: 0 <= i < |page| ==> page[i].ownerId == caller.id)
      && (s.Valid() ==> forall i, j :: 0 <= i < j < |page| ==> page[i].id != page[j].id)
  {
    var shown := Crud.OwnerFilter(Scope(caller));
    SelectMatchesCount(s.listings, scan, shown);
    CountIs(s.listings, shown, Crud.ListingsOf(s.listings, Scope(caller)));
    PageDistinctKeys(s.listings, scan, shown, (l: Listing) => l.id, skip, limit);
    Reply(Ok(Listed(Window(Select(s.listings, scan, shown), skip, limit), Count(s.listings, shown))), s)
  }

  /**
   * Two requests that see the rows in the same order (one `scan` for both)
   * page through that order: the page after a page continues it, the two
   * together are the page as long as both, and no listing is on both. No
   * query orders its rows, so separate requests need not see one order.
   */
  lemma ConsecutivePages(s: Store, caller: Principal, scan: seq<Id>, skip: nat, a: nat, b: nat)
    requires Enumerates(scan, s.listings)
    ensures var first := ReadListings(s, caller, scan, skip, a).outcome.value.data;
      var next := ReadListings(s, caller, scan, skip + a, b).outcome.value.data;
      && first + next == ReadListings(s, caller, scan, skip, a + b).outcome.value.data
      && (s.Valid() ==> forall i, j :: 0 <= i < |first| && 0 <= j < |next| ==> first[i].id != next[j].id)
  {
    var rows := Select(s.listings, scan, Crud.OwnerFilter(Scope(caller)));
    var key := (l: Listing) => l.id;
    WindowsJoin(rows, skip, a, b);
    if s.Valid() {
      SelectDistinctKeys(s.listings, scan, Crud.OwnerFilter(Scope(caller)), key);
      WindowsDisjoint(rows, skip, a, skip + a, b, key);
    }
  }

  /** `POST /listings`: stores the body as a new listing owned by the caller. */
  function CreateListing(s: Store, caller: Principal, body: ListingCreate, newId: Id): (r: Reply<Listing>)
    requires newId !in s.listings
    ensures r.outcome.Ok? || r.outcome.Unprocessable?
    ensures r.outcome.Unprocessable? <==> !ValidListingCreate(body)
    ensures r.outcome.Unprocessable? ==> r.store == s
    ensures r.outcome.Ok? ==>
      r.outcome.value == Listing(newId, body.title, body.description, body.price, body.category, body.location, body.images, caller.id)
    ensures r.outcome.Ok? ==> r.store == s.(listings := s.listings[newId := r.outcome.value])
    ensures s.Valid() ==> r.store.Valid()
  {
    if !ValidListingCreate(body) then Reply(Unprocessable, s)
    else
      var saved := Crud.CreateListing(s.listings, body, caller.id, newId);
      Reply(Ok(saved.record), s.(listings := saved.table))
  }

  /** `GET /listings/{id}`. */
  function ReadListing(s: Store, caller: Principal, id: Id): (r: Reply<Listing>)
    ensures r.store == s
    ensures r.outcome.NotFound? <==> id !in s.listings
    ensures id in s.listings ==>
      (r.outcome.Forbidden? <==> !caller.isSuperuser && s.listings[id].ownerId != caller.id)
    ensures r.outcome.Ok? || r.outcome.NotFound? || r.outcome.Forbidden?
    ensures r.outcome.Ok? ==> id in s.listings && r.outcome.value == s.listings[id]
  {
    if id !in s.listings then Reply(NotFound, s)
    else if !Permits(PolicyOf(s.listings[id]), caller) then Reply(Forbidden, s)
    else Reply(Ok(s.listings[id]), s)
  }

  /**
   * `PUT /listings/{id}`: merges the fields the body sets onto the listing.
   * The body is validated first (422), then the id looked up (404), then
   * the caller checked (403).
   */
  function UpdateListing(s: Store, caller: Principal, id: Id, body: ListingUpdate): (r: Reply<Listing>)
    ensures !r.outcome.Ok? ==> r.store == s
    ensures r.outcome.Unprocessable? <==> !ValidListingUpdate(body)
    ensures ValidListingUpdate(body) ==> (r.outcome.NotFound? <==> id !in s.listings)
    ensures ValidListingUpdate(body) && id in s.listings ==>
      (r.outcome.Forbidden? <==> !caller.isSuperuser && s.listings[id].ownerId != caller.id)
    ensures r.outcome.Ok? ==> id in s.listings
    ensures r.outcome.Ok? ==> r.outcome.value == Crud.ApplyListingUpdate(s.listings[id], body)
    ensures r.outcome.Ok? ==> r.outcome.value.ownerId == s.listings[id].ownerId
    ensures r.outcome.Ok? ==> r.store == s.(listings := s.listings[id := r.outcome.value])
    ensures s.Valid() ==> r.store.Valid()
  {
    if !ValidListingUpdate(body) then Reply(Unprocessable, s)
    else if id !in s.listings then Reply(NotFound, s)
    else if !Permits(PolicyOf(s.listings[id]), caller) then Reply(Forbidden, s)
    else
      var written := Crud.UpdateListing(s.listings, id, body);
      Reply(Ok(written.result.value), s.(listings := written.table))
  }

  /** `DELETE /listings/{id}`: removes the listing and answers with it. */
  function DeleteListing(s: Store, caller: Principal, id: Id): (r: Reply<Listing>)
    ensures !r.outcome.Ok? ==> r.store == s
    ensures r.outcome.NotFound? <==> id !in s.listings
    ensures id in s.listings ==>
      (r.outcome.Forbidden? <==> !caller.isSuperuser && s.listings[id].ownerId != caller.id)
    ensures r.outcome.Ok? || r.outcome.NotFound? || r.outcome.Forbidden?
    ensures r.outcome.Ok? ==> id in s.listings && r.outcome.value == s.listings[id]
    ensures r.outcome.Ok? ==> r.store == s.(listings := s.listings - {id})
    ensures s.Valid() ==> r.store.Valid()
  {
    if id !in s.listings then Reply(NotFound, s)
    else if !Permits(PolicyOf(s.listings[id]), caller) then Reply(Forbidden, s)
    else
      var written := Crud.Remove(s.listings, id);
      assert written.table == s.listings - {id};
      Reply(Ok(written.result.value), s.(listings := written.table))
  }

  /** A listing its creator deletes again leaves the store as it was before the creation. */
  lemma CreateThenDeleteRestores(s: Store, caller: Principal, body: ListingCreate, newId: Id)
    requires newId !in s.listings
    requires ValidListingCreate(body)
    ensures var created := CreateListing(s, caller, body, newId);
      created.outcome.Ok? && DeleteListing(created.store, caller, newId) == Reply(Ok(created.outcome.value), s)
  {
    var created := CreateListing(s, caller, body, newId);
    assert created.store.listings - {newId} == s.listings;
  }

  /** After a successful delete, deleting the same id again is 404 and changes nothing. */
  lemma DeleteTwiceIsNotFound(s: Store, caller: Principal, id: Id)
    requires DeleteListing(s, caller, id).outcome.Ok?
    ensures var once := DeleteListing(s, caller, id);
      DeleteListing(once.store, caller, id) == Reply(NotFound, once.store)
  {
  }

  /** An update that sets nothing, by someone allowed to make it, answers with the listing and changes nothing. */
  lemma EmptyUpdateChangesNothing(s: Store, caller: Principal, id: Id)
    requires id in s.listings
    requires caller.isSuperuser || s.listings[id].ownerId == caller.id
    ensures UpdateListing(s, caller, id, NoListingChange) == Reply(Ok(s.listings[id]), s)
  {
    Crud.EmptyListingUpdateIsIdentity(s.listings, id);
  }
}

=== FILE: messages.dfy ===
/**
 * The `/messages` routes (backend/app/api/routes/messages.py).
 *
 * A message is always sent as the caller. A conversation is every message
 * between the caller and one other user, in either direction; an empty one
 * is answered with 404.
 */
module Messages {
  import opened Fields
  import opened Models
  import opened Tables
  import opened Api

  /** `m` went from `a` to `b` or from `b` to `a`. */
  predicate Between(m: Message, a: Id, b: Id) {
    (m.senderId == a && m.receiverId == b) || (m.senderId == b && m.receiverId == a)
  }

  /**
   * `POST /messages`: stores the body with the caller as sender, whatever
   * sender the body names. A body without a timestamp is stamped `now`.
   */
  function SendMessage(s: Store, caller: Principal, body: MessageCreate, newId: Id, now: Time): (r: Reply<Message>)
    requires newId !in s.messages
    ensures r.outcome.Ok?
    ensures r.outcome.value.id == newId && r.outcome.value.senderId == caller.id
    ensures r.outcome.value.receiverId == body.receiverId && r.outcome.value.content == body.content
    ensures body.timestamp.Some? ==> r.outcome.value.timestamp == body.timestamp.value
    ensures body.timestamp.None? ==> r.outcome.value.timestamp == now
    ensures r.store == s.(messages := s.messages[newId := r.outcome.value])
    ensures s.Valid() ==> r.store.Valid()
  {
    var m := Message(newId, caller.id, body.receiverId, body.content, body.timestamp.GetOr(now));
    Reply(Ok(m), s.(messages := s.messages[newId := m]))
  }

  /**
   * `GET /messages/conversation/{other}`: the messages the caller sent to
   * `other` and those `other` sent to the caller; 404 when there are none.
   */
  function GetConversation(s: Store, caller: Principal, other: Id, scan: seq<Id>): (r: Reply<seq<Message>>)
    requires Enumerates(scan, s.messages)
    ensures r.store == s
    ensures r.outcome.Ok? || r.outcome.NotFound?
    ensures r.outcome.NotFound? <==>
      forall k :: k in s.messages ==>
        !((s.messages[k].senderId == caller.id && s.messages[k].receiverId == other) ||
          (s.messages[k].senderId == other && s.messages[k].receiverId == caller.id))
    ensures r.outcome.Ok? ==> forall m :: m in r.outcome.value <==>
      m in s.messages.Values &&
      ((m.senderId == caller.id && m.receiverId == other) || (m.senderId == other && m.receiverId == caller.id))
  {
    var p := (m: Message) => Between(m, caller.id, other);
    var rows := Select(s.messages, scan, p);
    SelectAllAndOnly(s.messages, scan, p);
    assert rows != [] ==> rows[0] in rows;
    Reply(OkUnlessEmpty(rows), s)
  }

  /** Either participant fetching the conversation gets the same answer; being a superuser changes nothing. */
  lemma ConversationIsSymmetric(s: Store, a: Principal, b: Principal, scan: seq<Id>)
    requires Enumerates(scan, s.messages)
    ensures GetConversation(s, a, b.id, scan) == GetConversation(s, b, a.id, scan)
  {
    SelectCongruent(s.messages, scan, (m: Message) => Between(m, a.id, b.id), (m: Message) => Between(m, b.id, a.id));
  }

  /** Once the caller has sent a message, their conversation with its receiver is found and holds it. */
  lemma SentMessageIsInConversation(s: Store, caller: Principal, body: MessageCreate, newId: Id, now: Time, scan: seq<Id>)
    requires newId !in s.messages
    requires Enumerates(scan, SendMessage(s, caller, body, newId, now).store.messages)
    ensures var sent := SendMessage(s, caller, body, newId, now);
      var conversation := GetConversation(sent.store, caller, body.receiverId, scan);
      conversation.outcome.Ok? && sent.outcome.value in conversation.outcome.value
  {
    var sent := SendMessage(s, caller, body, newId, now);
    assert sent.store.messages[newId] == sent.outcome.value;
  }
}

=== FILE: models.dfy ===
/**
 * The records of the marketplace backend's tables, the request bodies that
 * create and update them, their defaults and their field validators
 * (backend/app/models.py).
 *
 * A field the client may leave out of a create body is an `Option`, resolved
 * to its default where the record is built; a field of an update body is a
 * `Patch`. Email and URL fields are plain strings.
 */
module Models {
  import opened Fields

  /** A record identifier: a UUID in the backend, taken here as its integer value. */
  type Id = nat

  /** A `datetime` field; no operation compares or computes with one. */
  type Time = int

  /** A `float` field (price, total price, rating); no operation computes with one. */
  type Amount = int

  /** `max_length` of every bounded string field. */
  const MaxFieldLength := 255
  /** `min_length` and `max_length` of every password field. */
  const MinPasswordLength := 8
  const MaxPasswordLength := 40
  /** Status of a report nobody has handled yet. */
  const PendingStatus := "pending"

  predicate WithinMax(s: string) {
    |s| <= MaxFieldLength
  }

  predicate OptionalWithinMax(s: Option<string>) {
    s.None? || WithinMax(s.value)
  }

  predicate ValidPassword(p: string) {
    MinPasswordLength <= |p| <= MaxPasswordLength
  }

  // ---------------------------------------------------------------- users

  datatype User = User(
    id: Id,
    email: string,
    isActive: bool,
    isSuperuser: bool,
    fullName: Option<string>,
    hashedPassword: string)

  /** Body of an administrator's user creation; `None` flags take their defaults. */
  datatype UserCreate = UserCreate(
    email: string,
    isActive: Option<bool>,
    isSuperuser: Option<bool>,
    fullName: Option<string>,
    password: string)

  /** Body of self-registration. */
  datatype UserRegister = UserRegister(email: string, password: string, fullName: Option<string>)

  /** Body of an administrator's user update; every field may be left out. */
  datatype UserUpdate = UserUpdate(
    email: Patch<string>,
    isActive: Patch<bool>,
    isSuperuser: Patch<bool>,
    fullName: Patch<Option<string>>,
    password: Patch<string>)

  /** Body of a user updating their own profile. */
  datatype UserUpdateMe = UserUpdateMe(fullName: Option<string>, email: Option<string>)

  /** Body of a password change. */
  datatype UpdatePassword = UpdatePassword(currentPassword: string, newPassword: string)

  /** Body of a password reset. */
  datatype NewPassword = NewPassword(token: string, newPassword: string)

  predicate ValidUserCreate(c: UserCreate) {
    WithinMax(c.email) && OptionalWithinMax(c.fullName) && ValidPassword(c.password)
  }

  predicate ValidUserRegister(c: UserRegister) {
    WithinMax(c.email) && ValidPassword(c.password) && OptionalWithinMax(c.fullName)
  }

  predicate ValidUserUpdate(u: UserUpdate) {
    && (u.email.Set? ==> WithinMax(u.email.value))
    && (u.fullName.Set? ==> OptionalWithinMax(u.fullName.value))
    && (u.password.Set? ==> ValidPassword(u.password.value))
  }

  predicate ValidUserUpdateMe(u: UserUpdateMe) {
    OptionalWithinMax(u.fullName) && OptionalWithinMax(u.email)
  }

  predicate ValidUpdatePassword(u: UpdatePassword) {
    ValidPassword(u.currentPassword) && ValidPassword(u.newPassword)
  }

  predicate ValidNewPassword(n: NewPassword) {
    ValidPassword(n.newPassword)
  }

  // ---------------------------------------------------------------- items

  datatype Item = Item(id: Id, title: string, description: Option<string>, ownerId: Id)

  datatype ItemCreate = ItemCreate(title: string, description: Option<string>)

  /** Body of an item update; `None` is a field left out or sent as null. */
  datatype ItemUpdate = ItemUpdate(title: Option<string>, description: Option<string>)

  predicate ValidItemCreate(c: ItemCreate) {
    1 <= |c.title| <= MaxFieldLength && OptionalWithinMax(c.description)
  }

  predicate ValidItemUpdate(u: ItemUpdate) {
    (u.title.None? || 1 <= |u.title.value| <= MaxFieldLength) && OptionalWithinMax(u.description)
  }

  // ------------------------------------------------------------- listings

  datatype Listing = Listing(
    id: Id,
    title: Option<string>,
    description: Option<string>,
    price: Option<Amount>,
    category: Option<string>,
    location: Option<string>,
    images: Option<seq<string>>,
    ownerId: Id)

  /** Body of listing creation: every field is optional and there is no owner. */
  datatype ListingCreate = ListingCreate(
    title: Option<string>,
    description: Option<string>,
    price: Option<Amount>,
    category: Option<string>,
    location: Option<string>,
    images: Option<seq<string>>)

  /**
   * Body of a listing update. The columns are nullable, so a field sent as
   * null is `Set(None)`, which clears the column. There is no owner field.
   */
  datatype ListingUpdate = ListingUpdate(
    title: Patch<Option<string>>,
    description: Patch<Option<string>>,
    price: Patch<Option<Amount>>,
    category: Patch<Option<string>>,
    location: Patch<Option<string>>,
    images: Patch<Option<seq<string>>>)

  /** The update body that sets nothing. */
  const NoListingChange := ListingUpdate(Unset, Unset, Unset, Unset, Unset, Unset)

  predicate PatchWithinMax(p: Patch<Option<string>>) {
    p.Set? ==> OptionalWithinMax(p.value)
  }

  predicate ValidListingCreate(c: ListingCreate) {
    && OptionalWithinMax(c.title)
    && OptionalWithinMax(c.description)
    && OptionalWithinMax(c.category)
    && OptionalWithinMax(c.location)
  }

  predicate ValidListingUpdate(u: ListingUpdate) {
    && PatchWithinMax(u.title)
    && PatchWithinMax(u.description)
    && PatchWithinMax(u.category)
    && PatchWithinMax(u.location)
  }

  // --------------------------------------------------------- transactions

  /** A rental; `status` is free text ("pending", "approved", ...), not checked. */
  datatype Transaction = Transaction(
    id: Id,
    listingId: Id,
    renterId: Id,
    lenderId: Id,
    startDate: Time,
    endDate: Time,
    totalPrice: Amount,
    status: string)

  datatype TransactionCreate = TransactionCreate(
    listingId: Id,
    renterId: Id,
    lenderId: Id,
    startDate: Time,
    endDate: Time,
    totalPrice: Amount,
    status: string)

  /** Body of a transaction update: the listing and the two parties are not in it. */
  datatype TransactionUpdate = TransactionUpdate(
    status: Patch<string>,
    totalPrice: Patch<Amount>,
    startDate: Patch<Time>,
    endDate: Patch<Time>)

  /** The update body that sets nothing. */
  const NoTransactionChange := TransactionUpdate(Unset, Unset, Unset, Unset)

  // ------------------------------------------------------------- messages

  datatype Message = Message(id: Id, senderId: Id, receiverId: Id, content: string, timestamp: Time)

  /** Body of a message; `timestamp` left out means "now". */
  datatype MessageCreate = MessageCreate(senderId: Id, receiverId: Id, content: string, timestamp: Option<Time>)

  // -------------------------------------------------------------- reviews

  datatype Review = Review(
    id: Id,
    reviewerId: Id,
    revieweeId: Id,
    listingId: Id,
    rating: Amount,
    comment: string,
    timestamp: Time)

  datatype ReviewCreate = ReviewCreate(
    reviewerId: Id,
    revieweeId: Id,
    listingId: Id,
    rating: Amount,
    comment: string,
    timestamp: Option<Time>)

  // -------------------------------------------------------- notifications

  datatype Notification = Notification(
    id: Id,
    userId: Id,
    title: string,
    message: string,
    isRead: bool,
    timestamp: Time)

  /** Body of a notification; `isRead` left out means unread. */
  datatype NotificationCreate = NotificationCreate(
    userId: Id,
    title: string,
    message: string,
    isRead: Option<bool>,
    timestamp: Option<Time>)

  // -------------------------------------------------------------- reports

  /** A report against a user, optionally about one listing; `status` is free text. */
  datatype Report = Report(
    id: Id,
    reporterId: Id,
    reportedUserId: Id,
    listingId: Option<Id>,
    message: string,
    timestamp: Time,
    status: string)

  /** Body of a report; `status` left out means pending. */
  datatype ReportCreate = ReportCreate(
    reporterId: Id,
    reportedUserId: Id,
    listingId: Option<Id>,
    message: string,
    timestamp: Option<Time>,
    status: Option<string>)

  /** Body of a report update: the status is its only field. */
  datatype ReportUpdate = ReportUpdate(status: Patch<string>)

  // ---------------------------------------------------------------- store

  /** The database: one table per record type, keyed by record id. */
  datatype Store = Store(
    users: map<Id, User>,
    items: map<Id, Item>,
    listings: map<Id, Listing>,
    transactions: map<Id, Transaction>,
    messages: map<Id, Message>,
    reviews: map<Id, Review>,
    notifications: map<Id, Notification>,
    reports: map<Id, Report>)
  {
    /** Every record is stored under its own id. */
    predicate Valid() {
      && (forall k :: k in users ==> users[k].id == k)
      && (forall k :: k in items ==> items[k].id == k)
      && (forall k :: k in listings ==> listings[k].id == k)
      && (forall k :: k in transactions ==> transactions[k].id == k)
      && (forall k :: k in messages ==> messages[k].id == k)
      && (forall k :: k in reviews ==> reviews[k].id == k)
      && (forall k :: k in notifications ==> notifications[k].id == k)
      && (forall k :: k in reports ==> reports[k].id == k)
    }
  }
}

=== FILE: notifications.dfy ===
/**
 * The `/notifications` routes (backend/app/api/routes/notifications.py).
 *
 * Anyone may create a notification for anyone. A user lists only their own
 * notifications and marks only their own as read; a superuser has no
 * exception here.
 */
module Notifications {
  import opened Fields
  import opened Models
  import opened Tables
  import opened Api

  function PolicyOf(n: Notification): Policy {
    ActorOnly(n.userId)
  }

  /** Ids of the notifications addressed to `userId`. */
  function AddressedTo(notifications: map<Id, Notification>, userId: Id): set<Id> {
    set k | k in notifications && notifications[k].userId == userId
  }

  /**
   * `POST /notifications`: stores the body as given, for whichever user it
   * names; the route does not look at the caller. A body without `isRead`
   * makes an unread notification, one without a timestamp is stamped `now`.
   */
  function CreateNotification(s: Store, body: NotificationCreate, newId: Id, now: Time): (r: Reply<Notification>)
    requires newId !in s.notifications
    ensures r.outcome.Ok?
    ensures r.outcome.value.id == newId && r.outcome.value.userId == body.userId
    ensures r.outcome.value.title == body.title && r.outcome.value.message == body.message
    ensures body.isRead.None? ==> !r.outcome.value.isRead
    ensures body.isRead.Some? ==> r.outcome.value.isRead == body.isRead.value
    ensures body.timestamp.Some? ==> r.outcome.value.timestamp == body.timestamp.value
    ensures body.timestamp.None? ==> r.outcome.value.timestamp == now
    ensures r.store == s.(notifications := s.notifications[newId := r.outcome.value])
    ensures s.Valid() ==> r.store.Valid()
  {
    var n := Notification(newId, body.userId, body.title, body.message, body.isRead.GetOr(false), body.timestamp.GetOr(now));
    Reply(Ok(n), s.(notifications := s.notifications[newId := n]))
  }

  /** The filter of a notification query for `userId`'s notifications. */
  function AddresseeFilter(userId: Id): Notification -> bool {
    (n: Notification) => n.userId == userId
  }

  /** `GET /notifications`: one page of the notifications addressed to the caller. */
  function GetNotifications(s: Store, caller: Principal, scan: seq<Id>, skip: nat, limit: nat): (r: Reply<seq<Notification>>)
    requires Enumerates(scan, s.notifications)
    ensures r.store == s && r.outcome.Ok?
    ensures var page := r.outcome.value;
      && |page| <= limit
      && (var n := |AddressedTo(s.notifications, caller.id)|;
          |page| == if skip >= n then 0 else Min(limit, n - skip))
      && (forall i :: 0 <= i < |page| ==> page[i] in s.notifications.Values && page[i].userId == caller.id)
      && (s.Valid() ==> forall i, j :: 0 <= i < j < |page| ==> page[i].id != page[j].id)
  {
    var mine := AddresseeFilter(caller.id);
    SelectMatchesCount(s.notifications, scan, mine);
    CountIs(s.notifications, mine, AddressedTo(s.notifications, caller.id));
    PageDistinctKeys(s.notifications, scan, mine, (n: Notification) => n.id, skip, limit);
    Reply(Ok(Window(Select(s.notifications, scan, mine), skip, limit)), s)
  }

  /**
   * Two requests that see the rows in the same order (one `scan` for both)
   * page through that order: the page after a page continues it, the two
   * together are the page as long as both, and no notification is on both. No
   * query orders its rows, so separate requests need not see one order.
   */
  lemma ConsecutivePages(s: Store, caller: Principal, scan: seq<Id>, skip: nat, a: nat, b: nat)
    requires Enumerates(scan, s.notifications)
    ensures var first := GetNotifications(s, caller, scan, skip, a).outcome.value;
      var next := GetNotifications(s, caller, scan, skip + a, b).outcome.value;
      && first + next == GetNotifications(s, caller, scan, skip, a + b).outcome.value
      && (s.Valid() ==> forall i, j :: 0 <= i < |first| && 0 <= j < |next| ==> first[i].id != next[j].id)
  {
    var rows := Select(s.notifications, scan, AddresseeFilter(caller.id));
    var key := (n: Notification) => n.id;
    WindowsJoin(rows, skip, a, b);
    if s.Valid() {
      SelectDistinctKeys(s.notifications, scan, AddresseeFilter(caller.id), key);
      WindowsDisjoint(rows, skip, a, skip + a, b, key);
    }
  }

  /** `PATCH /notifications/{id}`: marks the caller's notification as read and changes nothing else. */
  function MarkRead(s: Store, caller: Principal, id: Id): (r: Reply<Notification>)
    ensures !r.outcome.Ok? ==> r.store == s
    ensures r.outcome.NotFound? <==> id !in s.notifications
    ensures id in s.notifications ==> (r.outcome.Forbidden? <==> s.notifications[id].userId != caller.id)
    ensures r.outcome.Ok? || r.outcome.NotFound? || r.outcome.Forbidden?
    ensures r.outcome.Ok? ==> id in s.notifications && r.outcome.value == s.notifications[id].(isRead := true)
    ensures r.outcome.Ok? ==> r.store == s.(notifications := s.notifications[id := r.outcome.value])
    ensures s.Valid() ==> r.store.Valid()
  {
    if id !in s.notifications then Reply(NotFound, s)
    else if !Permits(PolicyOf(s.notifications[id]), caller) then Reply(Forbidden, s)
    else
      var n := s.notifications[id].(isRead := true);
      Reply(Ok(n), s.(notifications := s.notifications[id := n]))
  }

  /** Marking a notification read a second time answers the same and leaves the store as the first time did. */
  lemma MarkReadIdempotent(s: Store, caller: Principal, id: Id)
    ensures var once := MarkRead(s, caller, id);
      MarkRead(once.store, caller, id) == once
  {
    var once := MarkRead(s, caller, id);
    if once.outcome.Ok? {
      assert once.store.notifications[id := once.outcome.value] == once.store.notifications;
    }
  }

  /** Nobody but the addressee, superusers included, can mark a notification read. */
  lemma OnlyAddresseeMarksRead(s: Store, caller: Principal, id: Id)
    requires id in s.notifications && s.notifications[id].userId != caller.id
    ensures MarkRead(s, caller, id) == Reply(Forbidden, s)
  {
  }

  /** The notification a user was sent can be marked read by that user, and by no one else. */
  lemma CreatedNotificationMarkedByAddressee(s: Store, body: NotificationCreate, newId: Id, now: Time, caller: Principal)
    requires newId !in s.notifications
    ensures var created := CreateNotification(s, body, newId, now);
      var marked := MarkRead(created.store, caller, newId);
      (marked.outcome.Ok? <==> caller.id == body.userId) &&
      (marked.outcome.Ok? ==> marked.outcome.value.isRead)
  {
  }
}

=== FILE: reports.dfy ===
/**
 * The `/reports` routes (backend/app/api/routes/reports.py).
 *
 * A report is always filed as the caller. Both the reporter and the
 * reported user see it in their list, but only the reporter may change its
 * status: not the reported user, and not a superuser.
 */
module Reports {
  import opened Fields
  import opened Models
  import opened Tables
  import opened Api

  function PolicyOf(r: Report): Policy {
    ActorOnly(r.reporterId)
  }

  /** Ids of the reports `userId` filed or is the subject of. */
  function Involving(reports: map<Id, Report>, userId: Id): set<Id> {
    set k | k in reports && (reports[k].reporterId == userId || reports[k].reportedUserId == userId)
  }

  /** `r` with its status replaced when the update sets one. */
  function ApplyReportUpdate(r: Report, u: ReportUpdate): (v: Report)
    ensures v.(status := r.status) == r
    ensures u.status.Set? ==> v.status == u.status.value
    ensures u.status.Unset? ==> v == r
  {
    r.(status := u.status.Over(r.status))
  }

  /**
   * `POST /reports`: stores the body with the caller as reporter, whatever
   * reporter the body names. A body without a status makes a pending
   * report, one without a timestamp is stamped `now`.
   */
  function CreateReport(s: Store, caller: Principal, body: ReportCreate, newId: Id, now: Time): (r: Reply<Report>)
    requires newId !in s.reports
    ensures r.outcome.Ok?
    ensures r.outcome.value.id == newId && r.outcome.value.reporterId == caller.id
    ensures r.outcome.value.reportedUserId == body.reportedUserId && r.outcome.value.listingId == body.listingId
    ensures r.outcome.value.message == body.message
    ensures body.status.None? ==> r.outcome.value.status == "pending"
    ensures body.status.Some? ==> r.outcome.value.status == body.status.value
    ensures body.timestamp.Some? ==> r.outcome.value.timestamp == body.timestamp.value
    ensures body.timestamp.None? ==> r.outcome.value.timestamp == now
    ensures r.store == s.(reports := s.reports[newId := r.outcome.value])
    ensures s.Valid() ==> r.store.Valid()
  {
    var report := Report(
      newId, caller.id, body.reportedUserId, body.listingId, body.message,
      body.timestamp.GetOr(now), body.status.GetOr(PendingStatus));
    Reply(Ok(report), s.(reports := s.reports[newId := report]))
  }

  /** The filter of a report query for the reports `userId` filed or is the subject of. */
  function InvolvementFilter(userId: Id): Report -> bool {
    (rp: Report) => rp.reporterId == userId || rp.reportedUserId == userId
  }

  /** `GET /reports`: one page of the reports the caller filed or is the subject of. */
  function GetReports(s: Store, caller: Principal, scan: seq<Id>, skip: nat, limit: nat): (r: Reply<seq<Report>>)
    requires Enumerates(scan, s.reports)
    ensures r.store == s && r.outcome.Ok?
    ensures |r.outcome.value| <= limit
    ensures var n := |Involving(s.reports, caller.id)|;
      |r.outcome.value| == if skip >= n then 0 else Min(limit, n - skip)
    ensures forall i :: 0 <= i < |r.outcome.value| ==>
      r.outcome.value[i] in s.reports.Values &&
      (r.outcome.value[i].reporterId == caller.id || r.outcome.value[i].reportedUserId == caller.id)
    ensures s.Valid() ==> forall i, j :: 0 <= i < j < |r.outcome.value| ==> r.outcome.value[i].id != r.outcome.value[j].id
  {
    var involved := InvolvementFilter(caller.id);
    SelectMatchesCount(s.reports, scan, involved);
    CountIs(s.reports, involved, Involving(s.reports, caller.id));
    PageDistinctKeys(s.reports, scan, involved, (rp: Report) => rp.id, skip, limit);
    Reply(Ok(Window(Select(s.reports, scan, involved), skip, limit)), s)
  }

  /**
   * Two requests that see the rows in the same order (one `scan` for both)
   * page through that order: the page after a page continues it, the two
   * together are the page as long as both, and no report is on both. No
   * query orders its rows, so separate requests need not see one order.
   */
  lemma ConsecutivePages(s: Store, caller: Principal, scan: seq<Id>, skip: nat, a: nat, b: nat)
    requires Enumerates(scan, s.reports)
    ensures var first := GetReports(s, caller, scan, skip, a).outcome.value;
      var next := GetReports(s, caller, scan, skip + a, b).outcome.value;
      && first + next == GetReports(s, caller, scan, skip, a + b).outcome.value
      && (s.Valid() ==> forall i, j :: 0 <= i < |first| && 0 <= j < |next| ==> first[i].id != next[j].id)
  {
    var rows := Select(s.reports, scan, InvolvementFilter(caller.id));
    var key := (rp: Report) => rp.id;
    WindowsJoin(rows, skip, a, b);
    if s.Valid() {
      SelectDistinctKeys(s.reports, scan, InvolvementFilter(caller.id), key);
      WindowsDisjoint(rows, skip, a, skip + a, b, key);
    }
  }

  /** `PATCH /reports/{id}`: sets the status the body carries, if any; only the reporter may. */
  function UpdateReport(s: Store, caller: Principal, id: Id, body: ReportUpdate): (r: Reply<Report>)
    ensures !r.outcome.Ok? ==> r.store == s
    ensures r.outcome.NotFound? <==> id !in s.reports
    ensures id in s.reports ==> (r.outcome.Forbidden? <==> s.reports[id].reporterId != caller.id)
    ensures r.outcome.Ok? || r.outcome.NotFound? || r.outcome.Forbidden?
    ensures r.outcome.Ok? ==> id in s.reports
    ensures r.outcome.Ok? ==> r.outcome.value.(status := s.reports[id].status) == s.reports[id]
    ensures r.outcome.Ok? && body.status.Set? ==> r.outcome.value.status == body.status.value
    ensures r.outcome.Ok? && body.status.Unset? ==> r.outcome.value == s.reports[id]
    ensures r.outcome.Ok? ==> r.store == s.(reports := s.reports[id := r.outcome.value])
    ensures s.Valid() ==> r.store.Valid()
  {
    if id !in s.reports then Reply(NotFound, s)
    else if !Permits(PolicyOf(s.reports[id]), caller) then Reply(Forbidden, s)
    else
      var report := ApplyReportUpdate(s.reports[id], body);
      Reply(Ok(report), s.(reports := s.reports[id := report]))
  }

  /** The reported user and superusers other than the reporter can never change a report. */
  lemma OnlyReporterUpdates(s: Store, caller: Principal, id: Id, body: ReportUpdate)
    requires id in s.reports && s.reports[id].reporterId != caller.id
    ensures UpdateReport(s, caller, id, body) == Reply(Forbidden, s)
  {
  }

  /** Whoever files a report can then set its status, even against a body that named another reporter. */
  lemma FilerCanUpdate(s: Store, caller: Principal, body: ReportCreate, newId: Id, now: Time, status: string)
    requires newId !in s.reports
    ensures var created := CreateReport(s, caller, body, newId, now);
      var updated := UpdateReport(created.store, caller, newId, ReportUpdate(Set(status)));
      updated.outcome.Ok? && updated.outcome.value == created.outcome.value.(status := status)
  {
  }

  /** An update that sets nothing, by the reporter, answers with the report and changes nothing. */
  lemma EmptyUpdateChangesNothing(s: Store, caller: Principal, id: Id)
    requires id in s.reports && s.reports[id].reporterId == caller.id
    ensures UpdateReport(s, caller, id, ReportUpdate(Unset)) == Reply(Ok(s.reports[id]), s)
  {
    assert s.reports[id := s.reports[id]] == s.reports;
  }
}

=== FILE: reviews.dfy ===
/**
 * The `/reviews` routes (backend/app/api/routes/reviews.py).
 *
 * A review is always written as the caller. The two list routes are open to
 * anyone, are not paged, and answer 404 rather than an empty list.
 */
module Reviews {
  import opened Fields
  import opened Models
  import opened Tables
  import opened Api

  /** `POST /reviews`: stores the body with the caller as reviewer, whatever reviewer the body names. */
  function CreateReview(s: Store, caller: Principal, body: ReviewCreate, newId: Id, now: Time): (r: Reply<Review>)
    requires newId !in s.reviews
    ensures r.outcome.Ok?
    ensures r.outcome.value.id == newId && r.outcome.value.reviewerId == caller.id
    ensures r.outcome.value.revieweeId == body.revieweeId && r.outcome.value.listingId == body.listingId
    ensures r.outcome.value.rating == body.rating && r.outcome.value.comment == body.comment
    ensures body.timestamp.Some? ==> r.outcome.value.timestamp == body.timestamp.value
    ensures body.timestamp.None? ==> r.outcome.value.timestamp == now
    ensures r.store == s.(reviews := s.reviews[newId := r.outcome.value])
    ensures s.Valid() ==> r.store.Valid()
  {
    var v := Review(newId, caller.id, body.revieweeId, body.listingId, body.rating, body.comment, body.timestamp.GetOr(now));
    Reply(Ok(v), s.(reviews := s.reviews[newId := v]))
  }

  /** `GET /reviews/listing/{listingId}`: every review of the listing; 404 when there is none. */
  function ReviewsOfListing(s: Store, listingId: Id, scan: seq<Id>): (r: Reply<seq<Review>>)
    requires Enumerates(scan, s.reviews)
    ensures r.store == s
    ensures r.outcome.Ok? || r.outcome.NotFound?
    ensures r.outcome.NotFound? <==> forall k :: k in s.reviews ==> s.reviews[k].listingId != listingId
    ensures r.outcome.Ok? ==> forall v :: v in r.outcome.value <==> v in s.reviews.Values && v.listingId == listingId
  {
    var p := (v: Review) => v.listingId == listingId;
    var rows := Select(s.reviews, scan, p);
    SelectAllAndOnly(s.reviews, scan, p);
    assert rows != [] ==> rows[0] in rows;
    Reply(OkUnlessEmpty(rows), s)
  }

  /** `GET /reviews/user/{userId}`: every review of the user as reviewee; 404 when there is none. */
  function ReviewsOfUser(s: Store, userId: Id, scan: seq<Id>): (r: Reply<seq<Review>>)
    requires Enumerates(scan, s.reviews)
    ensures r.store == s
    ensures r.outcome.Ok? || r.outcome.NotFound?
    ensures r.outcome.NotFound? <==> forall k :: k in s.reviews ==> s.reviews[k].revieweeId != userId
    ensures r.outcome.Ok? ==> forall v :: v in r.outcome.value <==> v in s.reviews.Values && v.revieweeId == userId
  {
    var p := (v: Review) => v.revieweeId == userId;
    var rows := Select(s.reviews, scan, p);
    SelectAllAndOnly(s.reviews, scan, p);
    assert rows != [] ==> rows[0] in rows;
    Reply(OkUnlessEmpty(rows), s)
  }

  /** A review just written is found both under its listing and under its reviewee. */
  lemma CreatedReviewIsListed(s: Store, caller: Principal, body: ReviewCreate, newId: Id, now: Time, scan: seq<Id>)
    requires newId !in s.reviews
    requires Enumerates(scan, CreateReview(s, caller, body, newId, now).store.reviews)
    ensures var created := CreateReview(s, caller, body, newId, now);
      var byListing := ReviewsOfListing(created.store, body.listingId, scan);
      var byUser := ReviewsOfUser(created.store, body.revieweeId, scan);
      && byListing.outcome.Ok? && created.outcome.value in byListing.outcome.value
      && byUser.outcome.Ok? && created.outcome.value in byUser.outcome.value
  {
    var created := CreateReview(s, caller, body, newId, now);
    assert created.store.reviews[newId] == created.outcome.value;
  }
}

=== FILE: tables.dfy ===
/**
 * Queries over one table: a filtered scan (`select ... where`), a row count
 * (`select count() ... where`), and an offset/limit window. No query in the
 * backend has an `order by`, so the order in which rows come back is a
 * parameter, `scan`, which lists every key of the table once.
 */
module Tables {
  import opened Models

  function Min(a: int, b: int): int {
    if a <= b then a else b
  }

  predicate Distinct(scan: seq<Id>) {
    forall i, j :: 0 <= i < j < |scan| ==> scan[i] != scan[j]
  }

  /** `scan` lists every key of `m` exactly once. */
  predicate Enumerates<T>(scan: seq<Id>, m: map<Id, T>) {
    && Distinct(scan)
    && (forall i :: 0 <= i < |scan| ==> scan[i] in m)
    && (forall k :: k in m ==> k in scan)
  }

  /** The number of rows of `m` that satisfy `p`, as a count query computes it. */
  function Count<T>(m: map<Id, T>, p: T -> bool): nat {
    |set k | k in m && p(m[k])|
  }

  /** The rows of `m` that satisfy `p`, in `scan` order. */
  function Select<T(==)>(m: map<Id, T>, scan: seq<Id>, p: T -> bool): (rows: seq<T>)
    ensures |rows| <= |scan|
    ensures forall i :: 0 <= i < |rows| ==> rows[i] in m.Values && p(rows[i])
    ensures forall k :: k in scan && k in m && p(m[k]) ==> m[k] in rows
  {
    if scan == [] then []
    else
      var rest := Select(m, scan[1..], p);
      assert forall k :: k in scan ==> k == scan[0] || k in scan[1..];
      if scan[0] in m && p(m[scan[0]]) then [m[scan[0]]] + rest else rest
  }

  /** Rows `skip` to `skip + limit` of `rows`, as `offset(skip).limit(limit)` returns them. */
  function Window<T>(rows: seq<T>, skip: nat, limit: nat): (page: seq<T>)
    ensures |page| == if skip >= |rows| then 0 else Min(limit, |rows| - skip)
    ensures forall i :: 0 <= i < |page| ==> page[i] == rows[skip + i]
  {
    if skip >= |rows| then [] else rows[skip..skip + Min(limit, |rows| - skip)]
  }

  /** The keys listed in `scan` whose rows satisfy `p`. */
  function MatchingKeys<T>(m: map<Id, T>, scan: seq<Id>, p: T -> bool): set<Id> {
    set k | k in scan && k in m && p(m[k])
  }

  /** A scan without repeated keys returns one row per matching key. */
  lemma {:induction false} SelectLength<T>(m: map<Id, T>, scan: seq<Id>, p: T -> bool)
    requires Distinct(scan)
    ensures |Select(m, scan, p)| == |MatchingKeys(m, scan, p)|
  {
    if scan == [] {
      assert MatchingKeys(m, scan, p) == {};
    } else {
      var tail := scan[1..];
      assert Distinct(tail) by {
        forall i, j | 0 <= i < j < |tail| ensures tail[i] != tail[j] {
          assert tail[i] == scan[i + 1] && tail[j] == scan[j + 1];
        }
      }
      SelectLength(m, tail, p);
      assert scan[0] !in tail by {
        forall i | 0 <= i < |tail| ensures tail[i] != scan[0] {
          assert tail[i] == scan[i + 1];
        }
      }
      assert forall k :: k in scan <==> k == scan[0] || k in tail;
      if scan[0] in m && p(m[scan[0]]) {
        assert Select(m, scan, p) == [m[scan[0]]] + Select(m, tail, p);
        assert MatchingKeys(m, scan, p) == MatchingKeys(m, tail, p) + {scan[0]};
      } else {
        assert Select(m, scan, p) == Select(m, tail, p);
        assert MatchingKeys(m, scan, p) == MatchingKeys(m, tail, p);
      }
    }
  }

  /** Over a full scan, the filtered rows are exactly as many as the count query reports. */
  lemma SelectMatchesCount<T>(m: map<Id, T>, scan: seq<Id>, p: T -> bool)
    requires Enumerates(scan, m)
    ensures |Select(m, scan, p)| == Count(m, p)
  {
    SelectLength(m, scan, p);
    assert MatchingKeys(m, scan, p) == (set k | k in m && p(m[k]));
  }

  /** `Count` is the size of any set that holds exactly the matching keys. */
  lemma CountIs<T>(m: map<Id, T>, p: T -> bool, keys: set<Id>)
    requires forall k :: k in keys <==> k in m && p(m[k])
    ensures Count(m, p) == |keys|
  {
    assert keys == set k | k in m && p(m[k]);
  }

  /** Over a full scan, a value is returned exactly when it is a row of `m` that satisfies `p`. */
  lemma SelectAllAndOnly<T>(m: map<Id, T>, scan: seq<Id>, p: T -> bool)
    requires Enumerates(scan, m)
    ensures forall x :: x in Select(m, scan, p) <==> x in m.Values && p(x)
  {
    var rows := Select(m, scan, p);
    forall x | x in m.Values && p(x)
      ensures x in rows
    {
      var k :| k in m && m[k] == x;
    }
  }

  /** Every row of `m` is stored under the key `key` reads off it, as a primary key is. */
  predicate KeyedBy<T>(m: map<Id, T>, key: T -> Id) {
    forall k :: k in m ==> key(m[k]) == k
  }

  /** No two rows of `rows` carry the same key. */
  predicate DistinctKeys<T>(rows: seq<T>, key: T -> Id) {
    forall i, j :: 0 <= i < j < |rows| ==> key(rows[i]) != key(rows[j])
  }

  /**
   * A scan without repeated keys over a table keyed by `key` returns every
   * row at most once: the rows' keys are distinct and all come from the scan.
   */
  lemma {:induction false} SelectDistinctKeys<T>(m: map<Id, T>, scan: seq<Id>, p: T -> bool, key: T -> Id)
    requires Distinct(scan) && KeyedBy(m, key)
    ensures DistinctKeys(Select(m, scan, p), key)
    ensures forall i :: 0 <= i < |Select(m, scan, p)| ==> key(Select(m, scan, p)[i]) in scan
  {
    if scan != [] {
      var tail := scan[1..];
      assert Distinct(tail) by {
        forall i, j | 0 <= i < j < |tail| ensures tail[i] != tail[j] {
          assert tail[i] == scan[i + 1] && tail[j] == scan[j + 1];
        }
      }
      SelectDistinctKeys(m, tail, p, key);
      assert scan[0] !in tail by {
        forall i | 0 <= i < |tail| ensures tail[i] != scan[0] {
          assert tail[i] == scan[i + 1];
        }
      }
      var rest := Select(m, tail, p);
      if scan[0] in m && p(m[scan[0]]) {
        var rows := [m[scan[0]]] + rest;
        assert Select(m, scan, p) == rows;
        forall i | 0 <= i < |rows| ensures key(rows[i]) in scan {
          if i > 0 {
            assert rows[i] == rest[i - 1];
          }
        }
        forall i, j | 0 <= i < j < |rows| ensures key(rows[i]) != key(rows[j]) {
          assert rows[j] == rest[j - 1];
          if i > 0 {
            assert rows[i] == rest[i - 1];
          }
        }
      } else {
        assert Select(m, scan, p) == rest;
      }
    }
  }

  /** A window of rows with distinct keys has distinct keys. */
  lemma WindowDistinctKeys<T>(rows: seq<T>, skip: nat, limit: nat, key: T -> Id)
    requires DistinctKeys(rows, key)
    ensures DistinctKeys(Window(rows, skip, limit), key)
  {
    var page := Window(rows, skip, limit);
    forall i, j | 0 <= i < j < |page| ensures key(page[i]) != key(page[j]) {
      assert page[i] == rows[skip + i] && page[j] == rows[skip + j];
    }
  }

  /** Over a table keyed by `key`, a page of a scan without repeated keys holds each row at most once. */
  lemma PageDistinctKeys<T>(m: map<Id, T>, scan: seq<Id>, p: T -> bool, key: T -> Id, skip: nat, limit: nat)
    requires Distinct(scan)
    ensures KeyedBy(m, key) ==> DistinctKeys(Window(Select(m, scan, p), skip, limit), key)
  {
    if KeyedBy(m, key) {
      SelectDistinctKeys(m, scan, p, key);
      WindowDistinctKeys(Select(m, scan, p), skip, limit, key);
    }
  }

  /** Consecutive windows join into one: the page of `a` rows from `skip`, then the page of `b` rows after it. */
  lemma WindowsJoin<T>(rows: seq<T>, skip: nat, a: nat, b: nat)
    ensures Window(rows, skip, a) + Window(rows, skip + a, b) == Window(rows, skip, a + b)
  {
  }

  /** A window and a later one that starts past its end share no key. */
  lemma WindowsDisjoint<T>(rows: seq<T>, skip1: nat, limit1: nat, skip2: nat, limit2: nat, key: T -> Id)
    requires DistinctKeys(rows, key)
    requires skip1 + limit1 <= skip2
    ensures forall i, j :: 0 <= i < |Window(rows, skip1, limit1)| && 0 <= j < |Window(rows, skip2, limit2)| ==>
      key(Window(rows, skip1, limit1)[i]) != key(Window(rows, skip2, limit2)[j])
  {
    var w1, w2 := Window(rows, skip1, limit1), Window(rows, skip2, limit2);
    forall i, j | 0 <= i < |w1| && 0 <= j < |w2| ensures key(w1[i]) != key(w2[j]) {
      assert w1[i] == rows[skip1 + i] && w2[j] == rows[skip2 + j];
    }
  }

  /** Two filters that agree on every row select the same rows. */
  lemma {:induction false} SelectCongruent<T>(m: map<Id, T>, scan: seq<Id>, p: T -> bool, q: T -> bool)
    requires forall x :: p(x) == q(x)
    ensures Select(m, scan, p) == Select(m, scan, q)
  {
    if scan != [] {
      SelectCongruent(m, scan[1..], p, q);
    }
  }

  /** If every number below `n` is in `s`, then `s` has at least `n` elements. */
  lemma {:induction false} PrefixBound(n: nat, s: set<nat>)
    requires forall j :: 0 <= j < n ==> j in s
    ensures n <= |s|
  {
    if n > 0 {
      var smaller := s - {n - 1};
      PrefixBound(n - 1, smaller);
    }
  }

  /**
   * Draws the id of a new record: the least id no record of the table holds.
   * The backend draws a random UUID instead; any unused id would do.
   */
  method FreshId(used: set<Id>) returns (id: Id)
    ensures id !in used
    ensures forall j :: 0 <= j < id ==> j in used
  {
    id := 0;
    while id in used
      invariant forall j :: 0 <= j < id ==> j in used
      invariant id <= |used|
      decreases |used| - id
    {
      id := id + 1;
      PrefixBound(id, used);
    }
  }
}

=== FILE: transactions.dfy ===
/**
 * The `/transactions` routes (backend/app/api/routes/transactions.py).
 *
 * A transaction belongs to its two parties, the renter and the lender; the
 * by-id routes admit either of them or a superuser, after answering 404 for
 * an unknown id. Creation stores the parties the body names and does not
 * require the caller to be one of them.
 */
module Transactions {
  import opened Fields
  import opened Models
  import opened Tables
  import opened Api
  import Crud

  function PolicyOf(t: Transaction): Policy {
    PartyOrSuperuser(t.renterId, t.lenderId)
  }

  /** `GET /transactions`: one page of the caller's transactions, and how many there are on all pages. */
  function ReadTransactions(s: Store, caller: Principal, scan: seq<Id>, skip: nat, limit: nat): (r: Reply<Listed<Transaction>>)
    requires Enumerates(scan, s.transactions)
    ensures r.store == s && r.outcome.Ok?
    ensures r.outcome.value.count == |Crud.TransactionsOf(s.transactions, caller.id)|
    ensures var page := r.outcome.value.data;
      && |page| <= limit
      && |page| == (if skip >= r.outcome.value.count then 0 else Min(limit, r.outcome.value.count - skip))
      && (forall i :: 0 <= i < |page| ==>
           page[i] in s.transactions.Values && (page[i].renterId == caller.id || page[i].lenderId == caller.id))
      && (s.Valid() ==> forall i, j :: 0 <= i < j < |page| ==> page[i].id != page[j].id)
  {
    var party := Crud.PartyFilter(caller.id);
    CountIs(s.transactions, party, Crud.TransactionsOf(s.transactions, caller.id));
    Reply(Ok(Listed(Crud.GetTransactions(s.transactions, scan, caller.id, skip, limit), Count(s.transactions, party))), s)
  }

  /**
   * Two requests that see the rows in the same order (one `scan` for both)
   * page through that order: the page after a page continues it, the two
   * together are the page as long as both, and no transaction is on both. No
   * query orders its rows, so separate requests need not see one order.
   */
  lemma ConsecutivePages(s: Store, caller: Principal, scan: seq<Id>, skip: nat, a: nat, b: nat)
    requires Enumerates(scan, s.transactions)
    ensures var first := ReadTransactions(s, caller, scan, skip, a).outcome.value.data;
      var next := ReadTransactions(s, caller, scan, skip + a, b).outcome.value.data;
      && first + next == ReadTransactions(s, caller, scan, skip, a + b).outcome.value.data
      && (s.Valid() ==> forall i, j :: 0 <= i < |first| && 0 <= j < |next| ==> first[i].id != next[j].id)
  {
    var rows := Select(s.transactions, scan, Crud.PartyFilter(caller.id));
    var key := (t: Transaction) => t.id;
    WindowsJoin(rows, skip, a, b);
    if s.Valid() {
      SelectDistinctKeys(s.transactions, scan, Crud.PartyFilter(caller.id), key);
      WindowsDisjoint(rows, skip, a, skip + a, b, key);
    }
  }

  /**
   * `POST /transactions`: stores the body as given. The caller's id offered
   * as an extra `owner_id` field is dropped, since a transaction has no such
   * field, so any caller may record a rental between any two users.
   */
  function CreateTransaction(s: Store, caller: Principal, body: TransactionCreate, newId: Id): (r: Reply<Transaction>)
    requires newId !in s.transactions
    ensures r.outcome.Ok?
    ensures r.outcome.value ==
      Transaction(newId, body.listingId, body.renterId, body.lenderId, body.startDate, body.endDate, body.totalPrice, body.status)
    ensures r.store == s.(transactions := s.transactions[newId := r.outcome.value])
    ensures s.Valid() ==> r.store.Valid()
  {
    var saved := Crud.CreateTransaction(s.transactions, body, newId);
    Reply(Ok(saved.record), s.(transactions := saved.table))
  }

  /** `GET /transactions/{id}`. */
  function ReadTransaction(s: Store, caller: Principal, id: Id): (r: Reply<Transaction>)
    ensures r.store == s
    ensures r.outcome.NotFound? <==> id !in s.transactions
    ensures id in s.transactions ==>
      (r.outcome.Forbidden? <==>
        !caller.isSuperuser && s.transactions[id].renterId != caller.id && s.transactions[id].lenderId != caller.id)
    ensures r.outcome.Ok? || r.outcome.NotFound? || r.outcome.Forbidden?
    ensures r.outcome.Ok? ==> id in s.transactions && r.outcome.value == s.transactions[id]
  {
    if id !in s.transactions then Reply(NotFound, s)
    else if !Permits(PolicyOf(s.transactions[id]), caller) then Reply(Forbidden, s)
    else Reply(Ok(s.transactions[id]), s)
  }

  /** `PUT /transactions/{id}`: merges the fields the body sets onto the transaction. */
  function UpdateTransaction(s: Store, caller: Principal, id: Id, body: TransactionUpdate): (r: Reply<Transaction>)
    ensures !r.outcome.Ok? ==> r.store == s
    ensures r.outcome.NotFound? <==> id !in s.transactions
    ensures id in s.transactions ==>
      (r.outcome.Forbidden? <==>
        !caller.isSuperuser && s.transactions[id].renterId != caller.id && s.transactions[id].lenderId != caller.id)
    ensures r.outcome.Ok? || r.outcome.NotFound? || r.outcome.Forbidden?
    ensures r.outcome.Ok? ==> id in s.transactions
    ensures r.outcome.Ok? ==> r.outcome.value == Crud.ApplyTransactionUpdate(s.transactions[id], body)
    ensures r.outcome.Ok? ==> r.store == s.(transactions := s.transactions[id := r.outcome.value])
    ensures s.Valid() ==> r.store.Valid()
  {
    if id !in s.transactions then Reply(NotFound, s)
    else if !Permits(PolicyOf(s.transactions[id]), caller) then Reply(Forbidden, s)
    else
      var written := Crud.UpdateTransaction(s.transactions, id, body);
      Reply(Ok(written.result.value), s.(transactions := written.table))
  }

  /** `DELETE /transactions/{id}`: removes the transaction and answers with a fixed message. */
  function DeleteTransaction(s: Store, caller: Principal, id: Id): (r: Reply<string>)
    ensures !r.outcome.Ok? ==> r.store == s
    ensures r.outcome.NotFound? <==> id !in s.transactions
    ensures id in s.transactions ==>
      (r.outcome.Forbidden? <==>
        !caller.isSuperuser && s.transactions[id].renterId != caller.id && s.transactions[id].lenderId != caller.id)
    ensures r.outcome.Ok? || r.outcome.NotFound? || r.outcome.Forbidden?
    ensures r.outcome.Ok? ==> r.outcome.value == "Item deleted successfully"
    ensures r.outcome.Ok? ==> r.store == s.(transactions := s.transactions - {id})
    ensures s.Valid() ==> r.store.Valid()
  {
    if id !in s.transactions then Reply(NotFound, s)
    else if !Permits(PolicyOf(s.transactions[id]), caller) then Reply(Forbidden, s)
    else
      var written := Crud.Remove(s.transactions, id);
      assert written.table == s.transactions - {id};
      Reply(Ok(DeletedMessage), s.(transactions := written.table))
  }

  /**
   * A caller who records a rental between two other users cannot read it
   * back, unless they are a superuser.
   */
  lemma CreatorOutsideTheRentalIsLockedOut(s: Store, caller: Principal, body: TransactionCreate, newId: Id)
    requires newId !in s.transactions
    requires !caller.isSuperuser && body.renterId != caller.id && body.lenderId != caller.id
    ensures var created := CreateTransaction(s, caller, body, newId);
      created.outcome.Ok? && ReadTransaction(created.store, caller, newId) == Reply(Forbidden, created.store)
  {
  }

  /** A transaction one of its parties deletes again leaves the store as it was before the creation. */
  lemma CreateThenDeleteByPartyRestores(s: Store, caller: Principal, body: TransactionCreate, newId: Id)
    requires newId !in s.transactions
    requires caller.id == body.renterId || caller.id == body.lenderId
    ensures var created := CreateTransaction(s, caller, body, newId);
      DeleteTransaction(created.store, caller, newId) == Reply(Ok(DeletedMessage), s)
  {
    var created := CreateTransaction(s, caller, body, newId);
    assert created.store.transactions - {newId} == s.transactions;
  }

  /** After a successful delete, deleting the same id again is 404 and changes nothing. */
  lemma DeleteTwiceIsNotFound(s: Store, caller: Principal, id: Id)
    requires DeleteTransaction(s, caller, id).outcome.Ok?
    ensures var once := DeleteTransaction(s, caller, id);
      DeleteTransaction(once.store, caller, id) == Reply(NotFound, once.store)
  {
  }

  /** An update that sets nothing, by a party or a superuser, answers with the transaction and changes nothing. */
  lemma EmptyUpdateChangesNothing(s: Store, caller: Principal, id: Id)
    requires id in s.transactions
    requires caller.isSuperuser || s.transactions[id].renterId == caller.id || s.transactions[id].lenderId == caller.id
    ensures UpdateTransaction(s, caller, id, NoTransactionChange) == Reply(Ok(s.transactions[id]), s)
  {
    Crud.EmptyTransactionUpdateIsIdentity(s.transactions, id);
  }
}
